=== FILE: README.md ===
# Pelagios heatmap: click disambiguation and nearest-place lookup

A Dafny model of the logic in `pelagios-heatmap.js`, the heatmap widget. It covers three parts.

- **Click disambiguator** (`Clicks`). This is the timer-based filter that stops a double click on the map from also counting as two single clicks. It is a two-state machine: `Idle`, or `Pending(event, isDblClick)`. Clicks and timer fires are its inputs. The timer's delay is abstracted into a `Fire` input.
- **Nearest-place lookup**:
  - `Query` builds the ±0.1-degree bounding-box request (limit 200) around a confirmed click.
  - `Places` reduces each returned place's GeoJSON geometry (Point or Polygon) to one coordinate.
  - `Ranking` sorts `{idx, dist}` candidates with the source's three-way comparator.
  - `Nearest` pairs places with their squared distances, sorts them, and picks the head. That head is the place whose popup opens. An empty response opens no popup.
- **Geometry utilities** (`Geo`):
  - `distanceSq` is the planar squared distance, over `real`.
  - `averageCoords` is the vertex mean of a ring. It reads GeoJSON `[lon, lat]` positions with the axes swapped.
  - `AverageCoords` models the source's accumulation loop. It is proved equal to the reference definition `Centroid`, which is the mean of each column.

Files:
- `geo.dfy`: module `Geo`
- `places.dfy`: module `Places`
- `query.dfy`: module `Query`
- `ranking.dfy`: module `Ranking`
- `nearest.dfy`: module `Nearest`
- `clicks.dfy`: module `Clicks`

Notes on the code as modelled:
- The code waits 500 ms before forwarding a click. The delay is abstracted into the `Fire` input.
- The box margin is a fixed 0.1 degrees (`Query.Margin`).
- The code does not skip malformed geometry, so `Nearest.Nearest` requires `Places.AllLocatable`.
- The fetch has no error callback. A failed fetch produces no response and no popup.

## Model

| member | source | states |
|---|---|---|
| Geo.DistanceSq | pelagios-heatmap.js:122-127 | The squared distance is never negative. It is at least the squared difference on each axis. It is zero exactly when the two coordinates are equal. |
| Geo.DistanceSqSymmetric | pelagios-heatmap.js:122-127 | The squared distance does not depend on the order of its arguments. |
| Geo.DistanceSqTranslation | pelagios-heatmap.js:122-127 | Shifting both coordinates by the same offset leaves their squared distance unchanged, because only the differences enter. |
| Geo.AverageCoords | pelagios-heatmap.js:129-140 | On a non-empty ring, the single accumulation loop returns the reference centre. Its lat is the mean of the vertices' index-1 components. Its lng is the mean of their index-0 components. |
| Geo.CentroidWithinBounds | pelagios-heatmap.js:129-140 | The vertex mean lies within the latitude and longitude range spanned by the ring's vertices. |
| Geo.CentroidSingleVertex | pelagios-heatmap.js:129-140 | A one-vertex ring averages to that vertex, with the axes swapped. |
| Geo.CentroidOfSquare | pelagios-heatmap.js:129-140 | The ring `[[0,0],[0,2],[2,2],[2,0]]` averages to lat 1, lng 1. |
| Geo.CentroidOfTriangle | pelagios-heatmap.js:129-140 | The ring `[[0,0],[3,0],[0,6]]` averages to lat 2, lng 1, so latitude comes from index 1 and longitude from index 0. |
| Geo.CentroidWithinEveryBound | pelagios-heatmap.js:129-140 | The vertex mean respects every latitude bound and every longitude bound that all of the ring's vertices respect. |
| Places.Representative | pelagios-heatmap.js:84-88 | A Point is located exactly where the vertex mean of a one-vertex ring holding its position is. A Polygon is located at the vertex mean of its first ring: its lat times the vertex count is the sum of the vertices' index-1 components, and its lng times the count the sum of their index-0 components. It therefore lies within every latitude and longitude bound that all those vertices respect. |
| Places.Locate | pelagios-heatmap.js:84-88 | Reading a Point's position with the axes swapped, or running the accumulation loop over a Polygon's first ring, gives exactly the representative coordinate. |
| Places.HolesIgnored | pelagios-heatmap.js:85 | Two Polygons with the same first ring are located at the same coordinate, whatever their other rings. |
| Places.PointAxesSwapped | pelagios-heatmap.js:86-87 | The Point `[3, 5]` is located at lat 5, lng 3. |
| Places.DegeneratePolygonIsPoint | pelagios-heatmap.js:84-88 | Suppose a polygon's outer ring is one vertex. Then the polygon is located where a Point at that vertex is, so the two branches agree. |
| Query.QueryBox | pelagios-heatmap.js:67-70 | The query box has min < max on both axes. It is centred on the click, 0.2 degrees wide on each axis, and contains the click. |
| Query.Request | pelagios-heatmap.js:67-75 | The request carries limit 200. Its four box parameters are sent in the order minLon, minLat, maxLon, maxLat: the 1st and 3rd are 0.2 apart and centred on the click's lng, the 2nd and 4th 0.2 apart and centred on its lat. |
| Query.RequestDescribesQueryBox | pelagios-heatmap.js:67-71 | Reading the four sent parameters back in sending order gives the query box. |
| Query.QueryBoxMembership | pelagios-heatmap.js:67-70 | A coordinate is in the box exactly when it is within 0.1 of the click on both axes. |
| Query.QueryBoxIsNear | pelagios-heatmap.js:67-70 | Every coordinate the box covers is within squared distance 2·0.1² of the click. |
| Ranking.Compare | pelagios-heatmap.js:93 | The comparator returns -1, 0 or 1; it is negative exactly when the first distance is smaller and positive exactly when it is larger. Its consistency is stated by `Ranking.CompareIsConsistent`. |
| Ranking.CompareIsConsistent | pelagios-heatmap.js:93 | The comparator's sign flips when its arguments are swapped. It is zero exactly on equal distances, and "not after" is transitive, so it is a consistent comparator. |
| Ranking.Insert | pelagios-heatmap.js:93 | Inserting into a distance-ordered list keeps it ordered and adds exactly the inserted candidate. |
| Ranking.Sort | pelagios-heatmap.js:93 | The sorted candidate list is ascending by distance and is a permutation of the unsorted list. |
| Nearest.PlaceDistance | pelagios-heatmap.js:89 | The distance of a place to the click is never negative, is zero exactly when the place is located at the click, and does not depend on the order of the two coordinates. |
| Nearest.Candidates | pelagios-heatmap.js:81-90 | There is exactly one candidate per returned place. Entry k has idx = k and dist = the squared distance from place k's representative coordinate to the click. |
| Nearest.Nearest | pelagios-heatmap.js:92-97 | The result is "no popup" exactly when the response is empty. Otherwise the chosen index is a valid index into the response, and that place is no farther from the click than any other returned place. |
| Nearest.HeadIsNearest | pelagios-heatmap.js:92-96 | The head of any sorted permutation of the candidates names a returned place of minimal distance. |
| Nearest.StrictlyNearestIsChosen | pelagios-heatmap.js:92-96 | A place strictly nearer than every other returned place is the one whose popup opens. |
| Nearest.NearerOfTwoPoints | pelagios-heatmap.js:65-97 | Take a click at (10, 10) with Points at (10.01, 10.01) and (10.2, 10.2). The popup opens for the first. |
| Clicks.Step | pelagios-heatmap.js:44-57 | A click always leaves that click pending, and marks it as a double click exactly when a timer was already pending. A fire always returns to idle with the mark cleared. It forwards the pending event exactly when the mark was off, and forwards at most one event. |
| Clicks.Run | pelagios-heatmap.js:44-57 | Over any sequence of inputs, the handler is invoked at most once per timer fire. It is invoked only with an event that was clicked. |
| Clicks.RunAppend | pelagios-heatmap.js:44-57 | Running over two input sequences in turn is the same as running over their concatenation. |
| Clicks.RunClicks | pelagios-heatmap.js:45-50 | After a burst of clicks, the last click is pending. It is marked as a double click unless the burst is one click from idle. Nothing is forwarded during the burst. |
| Clicks.Burst | pelagios-heatmap.js:44-56 | A burst closed by the timer returns to idle. It forwards its click's event if it is a single click, and nothing otherwise. |
| Clicks.SingleClickForwarded | pelagios-heatmap.js:50-52 | One isolated click followed by the timer invokes the handler exactly once, with that click's event. |
| Clicks.MultiClickSuppressed | pelagios-heatmap.js:45-52 | Two or more clicks before the timer fires invoke the handler zero times. |
| Clicks.SessionForwardsSingleClicks | pelagios-heatmap.js:34-57 | Take a session of bursts, each closed by the timer. It forwards, in order, exactly the events of its single-click bursts, so at most one per burst. |

## Left out

- Heatmap layer construction and its gradient configuration (pelagios-heatmap.js:17-30). This is rendering by the map library, with no logic of its own.
- The `jQuery.getJSON` fetch, the URL string and number-to-string formatting (pelagios-heatmap.js:75). The fetch is I/O. The request is modelled as its limit and box parameters (`Query.Request`), and the response as an input sequence of places.
- The `console.log` of the result count (pelagios-heatmap.js:78). This is output only.
- `showPopup` and its HTML template (pelagios-heatmap.js:105-114). This is UI string building. The model stops at the index of the place whose popup opens.
- The popup position (pelagios-heatmap.js:97). For a Polygon it reads components of a ring rather than of a position. No property is stated about it.
- `LoadIndicator` (pelagios-heatmap.js:143-156). It only has DOM side effects.
- The 500 ms delay and the real-time behaviour of `setTimeout`/`clearTimeout`. These are represented by the abstract `Fire` input.
- A `Fire` while idle cannot occur, because no timer is running then. `Clicks.Step` treats it as a no-op.
- Floating-point rounding. All arithmetic is over `real`, and `Math.pow(x, 2)` is `x * x`. The 0.1 margin is the exact decimal.
- Geometry types other than Point and Polygon. For those the source leaves the coordinate undefined and the distance computation fails, so `Places.Geometry` has only the two cases.
- Tie-breaking among equally distant places. This depends on the browser's sort algorithm. `Ranking.Sort` is an insertion sort, and only its ordered-permutation result is promised. `Nearest.Nearest` promises a place of minimal distance, not which one.
- Nearest.Nearest: requires every returned geometry to be locatable. That means a Point, or a Polygon whose first ring has a vertex. A Polygon without rings makes the source fail reading the missing ring's length. A Polygon with an empty first ring gets NaN from `0 / 0` (pelagios-heatmap.js:139), so its distance is NaN. The comparator (pelagios-heatmap.js:93) then returns 0 against every other candidate, so it is no longer a consistent ordering and the browser's sort may misorder the other candidates too. For distances `[5, NaN, 1]` a binary insertion sort leaves the order unchanged, and the popup opens for the place at distance 5. So the popup of any returned place can open, not only that of the NaN place. The model states nothing about such responses.
- Positions have at least two components, as GeoJSON requires (`Geo.Position`). For a shorter Point position the source reads `coordinates[1]` as undefined (pelagios-heatmap.js:87), and the distance becomes NaN with the same consequence as above.
- Geo.AverageCoords: requires a non-empty ring. The source divides by the vertex count.
- Overlapping lookups. Each confirmed click starts its own fetch (pelagios-heatmap.js:75), and each response opens its popup whenever it arrives (pelagios-heatmap.js:97), so a slow earlier response can replace a later click's popup. The model handles one response at a time and states nothing about their interleaving.
- The text search controller and its sentinel bounding box. There is no search code in `pelagios-heatmap.js`, so the search controller is not part of this model.

=== FILE: clicks.dfy ===
/**
 The click disambiguator of the heatmap: a double click must not also count
 as two single clicks. Each click (re)starts a timer; a click that arrives
 while a timer is pending cancels it and marks the burst as a double click.
 When the timer fires, the last click's event is forwarded to the
 single-click handler unless the burst was marked, and the machine returns
 to idle with the mark cleared.

 The timer's delay and wall-clock time are abstracted into a `Fire` input:
 the timer that fires is always the most recently started one, because every
 earlier one was cancelled. The event type `E` is left open.
 */
module Clicks {

  /** Idle (no timer), or a pending timer for `event` and the double-click mark. */
  datatype ClickState<E> = Idle | Pending(event: E, isDblClick: bool)

  /** A click on the map, or the pending timer firing. */
  datatype Input<E> = Click(e: E) | Fire

  /** The state after an input and the events forwarded to the single-click handler. */
  datatype Outcome<E> = Outcome(state: ClickState<E>, forwarded: seq<E>)

  /** One transition of the disambiguator. */
  function Step<E>(s: ClickState<E>, input: Input<E>): (o: Outcome<E>)
    ensures input.Click? ==> o.state.Pending? && o.state.event == input.e
    ensures input.Click? ==> (o.state.isDblClick <==> s.Pending?)
    ensures input.Fire? ==> o.state == Idle
    ensures |o.forwarded| <= 1
    ensures |o.forwarded| == 1 <==> input.Fire? && s.Pending? && !s.isDblClick
    ensures |o.forwarded| == 1 ==> o.forwarded[0] == s.event
  {
    match input
    case Click(e) => Outcome(Pending(e, s.Pending?), [])
    case Fire =>
      match s
      case Idle => Outcome(Idle, [])
      case Pending(e, dbl) => Outcome(Idle, if dbl then [] else [e])
  }

  /** Number of `Fire` inputs in a sequence. */
  function Fires<E>(inputs: seq<Input<E>>): nat
  {
    if |inputs| == 0 then 0 else (if inputs[0].Fire? then 1 else 0) + Fires(inputs[1..])
  }

  /** The events of the `Click` inputs of a sequence. */
  function ClickEvents<E>(inputs: seq<Input<E>>): seq<E>
  {
    if |inputs| == 0 then []
    else (if inputs[0].Click? then [inputs[0].e] else []) + ClickEvents(inputs[1..])
  }

  /**
   Runs the disambiguator over a sequence of inputs. The handler is invoked
   at most once per timer fire, and only ever with an event that was
   clicked, either in the run or before it.
   */
  function Run<E>(s: ClickState<E>, inputs: seq<Input<E>>): (o: Outcome<E>)
    ensures |o.forwarded| <= Fires(inputs)
    ensures forall i :: 0 <= i < |o.forwarded| ==>
              o.forwarded[i] in ClickEvents(inputs) || (s.Pending? && o.forwarded[i] == s.event)
    decreases |inputs|
  {
    if |inputs| == 0 then Outcome(s, [])
    else
      var first := Step(s, inputs[0]);
      var rest := Run(first.state, inputs[1..]);
      Outcome(rest.state, first.forwarded + rest.forwarded)
  }

  /** Running over `a + b` runs over `a`, then over `b` from where `a` left off. */
  lemma {:induction false} RunAppend<E>(s: ClickState<E>, a: seq<Input<E>>, b: seq<Input<E>>)
    ensures Run(s, a + b).state == Run(Run(s, a).state, b).state
    ensures Run(s, a + b).forwarded == Run(s, a).forwarded + Run(Run(s, a).state, b).forwarded
    decreases |a|
  {
    if |a| == 0 {
      assert a + b == b;
    } else {
      var first := Step(s, a[0]);
      assert (a + b)[0] == a[0];
      assert (a + b)[1..] == a[1..] + b;
      RunAppend(first.state, a[1..], b);
      var mid := Run(first.state, a[1..]);
      calc {
        Run(s, a + b).forwarded;
      ==
        first.forwarded + Run(first.state, a[1..] + b).forwarded;
      ==
        first.forwarded + (mid.forwarded + Run(mid.state, b).forwarded);
      ==
        (first.forwarded + mid.forwarded) + Run(mid.state, b).forwarded;
      }
    }
  }

  /** A burst of clicks carrying the given events, in order. */
  function ClickBurst<E>(es: seq<E>): (r: seq<Input<E>>)
    ensures |r| == |es|
    ensures forall i :: 0 <= i < |es| ==> r[i] == Click(es[i])
  {
    if |es| == 0 then [] else [Click(es[0])] + ClickBurst(es[1..])
  }

  /**
   After a burst of clicks from any state, the last click is pending, and it
   is marked as a double click unless the burst is a single click from idle.
   Nothing is forwarded during the burst.
   */
  lemma {:induction false} RunClicks<E>(s: ClickState<E>, es: seq<E>)
    requires |es| > 0
    ensures Run(s, ClickBurst(es)).state == Pending(es[|es| - 1], s.Pending? || |es| > 1)
    ensures Run(s, ClickBurst(es)).forwarded == []
    decreases |es|
  {
    var cs := ClickBurst(es);
    assert cs[0] == Click(es[0]);
    assert cs[1..] == ClickBurst(es[1..]);
    if |es| > 1 {
      RunClicks(Pending(es[0], s.Pending?), es[1..]);
    }
  }

  /** What one burst (clicks, then the timer firing) forwards. */
  function BurstOutput<E>(es: seq<E>): seq<E>
  {
    if |es| == 1 then [es[0]] else []
  }

  /**
   A burst of clicks started from idle and closed by the timer firing ends
   idle again; it forwards the event of its click when it is a single click
   and nothing otherwise.
   */
  lemma Burst<E>(es: seq<E>)
    ensures Run(Idle, ClickBurst(es) + [Fire]).state == Idle
    ensures Run(Idle, ClickBurst(es) + [Fire]).forwarded == BurstOutput(es)
  {
    RunAppend(Idle, ClickBurst(es), [Fire]);
    if |es| > 0 {
      RunClicks(Idle, es);
    }
  }

  /** An isolated click followed by the timer invokes the handler once, with that click. */
  lemma SingleClickForwarded<E>(e: E)
    ensures Run(Idle, [Click(e), Fire]).forwarded == [e]
  {
    Burst([e]);
    assert ClickBurst([e]) + [Fire] == [Click(e), Fire];
  }

  /** Two or more clicks before the timer fires invoke the handler zero times. */
  lemma MultiClickSuppressed<E>(es: seq<E>)
    requires |es| >= 2
    ensures Run(Idle, ClickBurst(es) + [Fire]).forwarded == []
  {
    Burst(es);
  }

  /** Concatenation of the bursts of a session, each closed by the timer firing. */
  function Session<E>(bursts: seq<seq<E>>): seq<Input<E>>
  {
    if |bursts| == 0 then [] else ClickBurst(bursts[0]) + [Fire] + Session(bursts[1..])
  }

  /** Concatenation of what each burst forwards. */
  function SessionOutput<E>(bursts: seq<seq<E>>): (r: seq<E>)
    ensures |r| <= |bursts|
  {
    if |bursts| == 0 then [] else BurstOutput(bursts[0]) + SessionOutput(bursts[1..])
  }

  /**
   A whole session of bursts forwards, burst by burst, exactly the single
   clicks, and so at most one event per burst.
   */
  lemma {:induction false} SessionForwardsSingleClicks<E>(bursts: seq<seq<E>>)
    ensures Run(Idle, Session(bursts)).state == Idle
    ensures Run(Idle, Session(bursts)).forwarded == SessionOutput(bursts)
    ensures |Run(Idle, Session(bursts)).forwarded| <= |bursts|
  {
    if |bursts| > 0 {
      var head := ClickBurst(bursts[0]) + [Fire];
      Burst(bursts[0]);
      RunAppend(Idle, head, Session(bursts[1..]));
      SessionForwardsSingleClicks(bursts[1..]);
    }
  }
}

=== FILE: geo.dfy ===
/**
 The geometry utilities of the heatmap (`pelagios.Heatmap.util`): the planar
 squared distance between two map coordinates and the vertex mean of a polygon
 ring. GeoJSON stores a position as `[lon, lat]`, so reading a ring back into a
 map coordinate swaps the two axes.

 Arithmetic is over `real`: the floating-point rounding of the browser is not
 modelled, and `Math.pow(x, 2)` is `x * x`.
 */
module Geo {

  /** A map coordinate as the map widget reports it. */
  datatype LatLng = LatLng(lat: real, lng: real)

  /** A GeoJSON position: index 0 is the longitude, index 1 the latitude. */
  type Position = p: seq<real> | |p| >= 2 witness [0.0, 0.0]

  /** A polygon ring: a sequence of GeoJSON positions. */
  type Ring = seq<Position>

  /** The GeoJSON index of the longitude and of the latitude in a position. */
  const LonIndex: nat := 0
  const LatIndex: nat := 1

  /** The square of a real, the model of `Math.pow(x, 2)`. */
  function Sq(x: real): real {
    x * x
  }

  /** Planar squared distance between two coordinates (no spherical correction). */
  function DistanceSq(a: LatLng, b: LatLng): (r: real)
    ensures r >= 0.0
    ensures r >= Sq(a.lat - b.lat) && r >= Sq(a.lng - b.lng)
    ensures r == 0.0 <==> a == b
  {
    var dLat := a.lat - b.lat;
    var dLng := a.lng - b.lng;
    SqSign(dLat);
    SqSign(dLng);
    Sq(dLat) + Sq(dLng)
  }

  /** A square is never negative, and it is zero only for zero. */
  lemma SqSign(x: real)
    ensures Sq(x) >= 0.0
    ensures x != 0.0 ==> Sq(x) > 0.0
  {
    if x > 0.0 {
      SqOfPositive(x);
    } else if x < 0.0 {
      SqOfPositive(-x);
      SqEven(x);
    }
  }

  lemma SqOfPositive(x: real)
    requires x > 0.0
    ensures Sq(x) > 0.0
  {
    calc {
      Sq(x);
    ==
      x * x;
    >
      0.0;
    }
  }

  lemma SqEven(x: real)
    ensures Sq(-x) == Sq(x)
  {
  }

  /** A value within `[-m, m]` has a square no larger than `m * m`. */
  lemma SqBounded(x: real, m: real)
    requires -m <= x <= m
    ensures Sq(x) <= Sq(m)
  {
  }

  /** The squared distance does not depend on the order of its arguments. */
  lemma DistanceSqSymmetric(a: LatLng, b: LatLng)
    ensures DistanceSq(a, b) == DistanceSq(b, a)
  {
  }

  /** Shifting both coordinates by the same offset keeps their squared distance. */
  lemma DistanceSqTranslation(a: LatLng, b: LatLng, dLat: real, dLng: real)
    ensures DistanceSq(LatLng(a.lat + dLat, a.lng + dLng), LatLng(b.lat + dLat, b.lng + dLng))
         == DistanceSq(a, b)
  {
  }

  /** The sum of a sequence of reals, accumulated left to right. */
  function Sum(xs: seq<real>): real
  {
    if |xs| == 0 then 0.0 else Sum(xs[..|xs| - 1]) + xs[|xs| - 1]
  }

  /** The arithmetic mean of a non-empty sequence of reals. */
  function Mean(xs: seq<real>): real
    requires |xs| > 0
  {
    Sum(xs) / (|xs| as real)
  }

  /** Component `k` of every vertex of a ring, in ring order. */
  function Column(ring: Ring, k: nat): (c: seq<real>)
    requires k < 2
    ensures |c| == |ring|
    ensures forall i :: 0 <= i < |ring| ==> c[i] == ring[i][k]
  {
    seq(|ring|, i requires 0 <= i < |ring| => ring[i][k])
  }

  /**
   Reference definition of the ring centre: the latitude is the mean of the
   vertices' index-1 components, the longitude the mean of their index-0
   components.
   */
  function Centroid(ring: Ring): LatLng
    requires |ring| > 0
  {
    LatLng(Mean(Column(ring, LatIndex)), Mean(Column(ring, LonIndex)))
  }

  /**
   `averageCoords`: one pass over the ring accumulating both components, then
   a division by the vertex count. An empty ring would divide by zero, so the
   ring must be non-empty.
   */
  method AverageCoords(coords: Ring) returns (r: LatLng)
    requires |coords| > 0
    ensures r == Centroid(coords)
  {
    var avgLat := 0.0;
    var avgLon := 0.0;
    var j := |coords|;
    var i := 0;
    while i < j
      invariant 0 <= i <= j
      invariant avgLat == Sum(Column(coords[..i], LatIndex))
      invariant avgLon == Sum(Column(coords[..i], LonIndex))
    {
      ColumnSnoc(coords[..i + 1], LatIndex);
      ColumnSnoc(coords[..i + 1], LonIndex);
      assert coords[..i + 1][..i] == coords[..i];
      avgLat := avgLat + coords[i][1];
      avgLon := avgLon + coords[i][0];
      i := i + 1;
    }
    assert coords[..i] == coords;
    r := LatLng(avgLat / (j as real), avgLon / (j as real));
  }

  /** Dropping the last vertex of a ring drops the last entry of its column. */
  lemma ColumnSnoc(ring: Ring, k: nat)
    requires k < 2 && |ring| > 0
    ensures Column(ring, k)[..|ring| - 1] == Column(ring[..|ring| - 1], k)
  {
  }

  /** A sum of values that all lie in `[lo, hi]` lies in `[n * lo, n * hi]`. */
  lemma {:induction false} SumBounds(xs: seq<real>, lo: real, hi: real)
    requires forall i :: 0 <= i < |xs| ==> lo <= xs[i] <= hi
    ensures (|xs| as real) * lo <= Sum(xs) <= (|xs| as real) * hi
  {
    if |xs| > 0 {
      var init := xs[..|xs| - 1];
      assert forall i :: 0 <= i < |init| ==> init[i] == xs[i];
      SumBounds(init, lo, hi);
    }
  }

  /** A mean of values that all lie in `[lo, hi]` lies in `[lo, hi]`. */
  lemma MeanBounds(xs: seq<real>, lo: real, hi: real)
    requires |xs| > 0
    requires forall i :: 0 <= i < |xs| ==> lo <= xs[i] <= hi
    ensures lo <= Mean(xs) <= hi
  {
    SumBounds(xs, lo, hi);
    var n := |xs| as real;
    assert Mean(xs) * n == Sum(xs);
  }

  /** A mean times the number of values is their sum. */
  lemma MeanTimesCount(xs: seq<real>)
    requires |xs| > 0
    ensures Mean(xs) * (|xs| as real) == Sum(xs)
  {
  }

  /** Every vertex of the ring has its latitude (index 1) within `[lo, hi]`. */
  predicate LatsWithin(ring: Ring, lo: real, hi: real) {
    forall i :: 0 <= i < |ring| ==> lo <= ring[i][LatIndex] <= hi
  }

  /** Every vertex of the ring has its longitude (index 0) within `[lo, hi]`. */
  predicate LngsWithin(ring: Ring, lo: real, hi: real) {
    forall i :: 0 <= i < |ring| ==> lo <= ring[i][LonIndex] <= hi
  }

  /**
   The ring centre lies inside the ring's bounding box: within the latitude
   and longitude range spanned by its vertices.
   */
  lemma CentroidWithinBounds(ring: Ring, minLat: real, maxLat: real, minLng: real, maxLng: real)
    requires |ring| > 0
    requires LatsWithin(ring, minLat, maxLat) && LngsWithin(ring, minLng, maxLng)
    ensures minLat <= Centroid(ring).lat <= maxLat
    ensures minLng <= Centroid(ring).lng <= maxLng
  {
    CentroidWithinEveryBound(ring);
  }

  /** The ring centre respects every bound that all the ring's vertices respect. */
  lemma CentroidWithinEveryBound(ring: Ring)
    requires |ring| > 0
    ensures forall lo, hi :: LatsWithin(ring, lo, hi) ==> lo <= Centroid(ring).lat <= hi
    ensures forall lo, hi :: LngsWithin(ring, lo, hi) ==> lo <= Centroid(ring).lng <= hi
  {
    forall lo, hi | LatsWithin(ring, lo, hi)
      ensures lo <= Centroid(ring).lat <= hi
    {
      MeanBounds(Column(ring, LatIndex), lo, hi);
    }
    forall lo, hi | LngsWithin(ring, lo, hi)
      ensures lo <= Centroid(ring).lng <= hi
    {
      MeanBounds(Column(ring, LonIndex), lo, hi);
    }
  }

  /** Appending a value to a sequence adds it to the sum. */
  lemma SumSnoc(xs: seq<real>, x: real)
    ensures Sum(xs + [x]) == Sum(xs) + x
  {
  }

  /** The sum of three values, unfolded. */
  lemma SumOfThree(a: real, b: real, c: real)
    ensures Sum([a, b, c]) == a + b + c
  {
    assert [a, b, c] == [a, b] + [c];
    assert [a, b] == [a] + [b];
    assert [a] == [] + [a];
    SumSnoc([], a);
    SumSnoc([a], b);
    SumSnoc([a, b], c);
  }

  /** A ring of one vertex has that vertex, axes swapped, as its centre. */
  lemma CentroidSingleVertex(p: Position)
    ensures Centroid([p]) == LatLng(p[1], p[0])
  {
    assert Column([p], LatIndex) == [p[1]];
    assert Column([p], LonIndex) == [p[0]];
    assert [p[1]][..0] == [];
    assert Sum([p[1]]) == p[1];
    assert [p[0]][..0] == [];
    assert Sum([p[0]]) == p[0];
  }

  /** The square `[[0,0],[0,2],[2,2],[2,0]]` (lon, lat pairs) has centre lat 1, lng 1. */
  lemma CentroidOfSquare()
    ensures Centroid([[0.0, 0.0], [0.0, 2.0], [2.0, 2.0], [2.0, 0.0]]) == LatLng(1.0, 1.0)
  {
    var ring: Ring := [[0.0, 0.0], [0.0, 2.0], [2.0, 2.0], [2.0, 0.0]];
    assert Column(ring, LatIndex) == [0.0, 2.0, 2.0] + [0.0];
    assert Column(ring, LonIndex) == [0.0, 0.0, 2.0] + [2.0];
    SumOfThree(0.0, 2.0, 2.0);
    SumOfThree(0.0, 0.0, 2.0);
    SumSnoc([0.0, 2.0, 2.0], 0.0);
    SumSnoc([0.0, 0.0, 2.0], 2.0);
  }

  /**
   The triangle `[[0,0],[3,0],[0,6]]` (lon, lat pairs) has centre lat 2,
   lng 1: the latitude is averaged from index 1 and the longitude from
   index 0, so a lost axis swap would give lat 1, lng 2.
   */
  lemma CentroidOfTriangle()
    ensures Centroid([[0.0, 0.0], [3.0, 0.0], [0.0, 6.0]]) == LatLng(2.0, 1.0)
  {
    var ring: Ring := [[0.0, 0.0], [3.0, 0.0], [0.0, 6.0]];
    assert Column(ring, LatIndex) == [0.0, 0.0, 6.0];
    assert Column(ring, LonIndex) == [0.0, 3.0, 0.0];
    SumOfThree(0.0, 0.0, 6.0);
    SumOfThree(0.0, 3.0, 0.0);
  }
}

=== FILE: nearest.dfy ===
/**
 The response side of a single click: every returned place is paired with
 its index and its squared distance to the click, the pairs are sorted by
 distance, and the head of the sorted list names the place whose popup
 opens. An empty response opens no popup.
 */
module Nearest {
  import opened Geo
  import opened Places
  import opened Ranking

  datatype Option<T> = None | Some(value: T)

  /** Squared distance from a place's representative coordinate to the click. */
  function PlaceDistance(place: Place, click: LatLng): (r: real)
    requires Locatable(place.geometry)
    ensures r >= 0.0
    ensures r == 0.0 <==> Location(place) == click
    ensures r == DistanceSq(click, Location(place))
  {
    DistanceSqSymmetric(Location(place), click);
    DistanceSq(Location(place), click)
  }

  /** One candidate per returned place, in response order, carrying its index and distance. */
  function Candidates(data: seq<Place>, click: LatLng): (r: seq<Candidate>)
    requires AllLocatable(data)
    ensures |r| == |data|
    ensures forall k :: 0 <= k < |r| ==> r[k].idx == k && r[k].dist == PlaceDistance(data[k], click)
  {
    if |data| == 0 then []
    else
      var n := |data| - 1;
      Candidates(data[..n], click) + [Candidate(n, PlaceDistance(data[n], click))]
  }

  /**
   The index of the place whose popup opens: the head of the candidates
   sorted by distance, or None for an empty response. The chosen place is no
   farther from the click than any other returned place.
   */
  function Nearest(data: seq<Place>, click: LatLng): (r: Option<nat>)
    requires AllLocatable(data)
    ensures r.None? <==> |data| == 0
    ensures r.Some? ==> r.value < |data|
    ensures r.Some? ==> forall k :: 0 <= k < |data| ==>
              PlaceDistance(data[r.value], click) <= PlaceDistance(data[k], click)
  {
    var distances := Candidates(data, click);
    if |distances| > 0 then
      var sorted := Sort(distances);
      HeadIsNearest(data, click, distances, sorted);
      Some(sorted[0].idx)
    else
      None
  }

  /** The head of the sorted candidates is a returned place no farther than any other. */
  lemma HeadIsNearest(data: seq<Place>, click: LatLng, distances: seq<Candidate>, sorted: seq<Candidate>)
    requires AllLocatable(data)
    requires distances == Candidates(data, click) && |distances| > 0
    requires Sorted(sorted) && multiset(sorted) == multiset(distances)
    ensures sorted[0].idx < |data|
    ensures forall k :: 0 <= k < |data| ==>
              PlaceDistance(data[sorted[0].idx], click) <= PlaceDistance(data[k], click)
  {
    assert distances[0] in multiset(sorted);
    assert sorted[0] in multiset(distances);
    var h :| 0 <= h < |distances| && distances[h] == sorted[0];
    forall k | 0 <= k < |data|
      ensures PlaceDistance(data[sorted[0].idx], click) <= PlaceDistance(data[k], click)
    {
      assert distances[k] in multiset(sorted);
      SortedHeadIsMinimal(sorted, distances[k]);
    }
  }

  /** A place strictly nearer than every other returned place is the one chosen. */
  lemma StrictlyNearestIsChosen(data: seq<Place>, click: LatLng, m: nat)
    requires AllLocatable(data) && m < |data|
    requires forall k :: 0 <= k < |data| && k != m ==>
               PlaceDistance(data[m], click) < PlaceDistance(data[k], click)
    ensures Nearest(data, click) == Some(m)
  {
  }

  /**
   A click at (10, 10) with Points returned at (10.01, 10.01) and
   (10.2, 10.2) opens the popup of the first.
   */
  lemma NearerOfTwoPoints()
    ensures Nearest([Place("a", "A", Point([10.01, 10.01])), Place("b", "B", Point([10.2, 10.2]))],
                    LatLng(10.0, 10.0)) == Some(0)
  {
    var data := [Place("a", "A", Point([10.01, 10.01])), Place("b", "B", Point([10.2, 10.2]))];
    var click := LatLng(10.0, 10.0);
    assert PlaceDistance(data[0], click) == 0.0002;
    assert PlaceDistance(data[1], click) == 0.08;
    StrictlyNearestIsChosen(data, click, 0);
  }
}

=== FILE: places.dfy ===
/**
 Place records as the gazetteer returns them, and the reduction of a place's
 GeoJSON geometry to the one map coordinate the nearest-place lookup ranks.
 Only the fields the lookup reads are kept; the descriptive fields shown in
 the popup are not part of this model.
 */
module Places {
  import opened Geo

  /** The two GeoJSON geometry types the lookup understands. */
  datatype Geometry =
    | Point(position: Position)
    | Polygon(rings: seq<Ring>)

  /** A gazetteer record; `name` holds the record's `label` field. */
  datatype Place = Place(id: string, name: string, geometry: Geometry)

  /**
   A geometry the lookup can reduce to a coordinate: every Point, and a
   Polygon whose first ring has a vertex. A Polygon without rings makes the
   browser read a property of a missing ring and fail; one with an empty
   first ring gets a not-a-number location from `0 / 0`.
   */
  predicate Locatable(g: Geometry) {
    g.Point? || (|g.rings| > 0 && |g.rings[0]| > 0)
  }

  /** Every place of a response has a locatable geometry. */
  predicate AllLocatable(data: seq<Place>) {
    forall k :: 0 <= k < |data| ==> Locatable(data[k].geometry)
  }

  /**
   The representative coordinate of a geometry: a Point `[lon, lat]` is read
   with its axes swapped, a Polygon is reduced to the vertex mean of its
   first (outer) ring; the other rings are ignored. Both are stated against
   the reference vertex mean: a Point is located as a one-vertex ring would
   be; a Polygon's location, scaled by the outer ring's vertex count, is the
   sum of that ring's latitudes and longitudes, and so respects every
   latitude and longitude bound its outer ring's vertices respect.
   */
  function Representative(g: Geometry): (r: LatLng)
    requires Locatable(g)
    ensures g.Point? ==> r == Centroid([g.position])
    ensures g.Polygon? ==> forall lo, hi :: LatsWithin(g.rings[0], lo, hi) ==> lo <= r.lat <= hi
    ensures g.Polygon? ==> forall lo, hi :: LngsWithin(g.rings[0], lo, hi) ==> lo <= r.lng <= hi
    ensures g.Polygon? ==> r.lat * (|g.rings[0]| as real) == Sum(Column(g.rings[0], LatIndex))
    ensures g.Polygon? ==> r.lng * (|g.rings[0]| as real) == Sum(Column(g.rings[0], LonIndex))
  {
    match g
    case Point(p) =>
      CentroidSingleVertex(p);
      LatLng(p[1], p[0])
    case Polygon(rings) =>
      CentroidWithinEveryBound(rings[0]);
      MeanTimesCount(Column(rings[0], LatIndex));
      MeanTimesCount(Column(rings[0], LonIndex));
      Centroid(rings[0])
  }

  /**
   The reduction as the map callback computes it, reading a Point's
   position and running the accumulation loop over a Polygon's outer ring.
   */
  method Locate(g: Geometry) returns (r: LatLng)
    requires Locatable(g)
    ensures r == Representative(g)
  {
    match g
    case Point(p) =>
      r := LatLng(p[1], p[0]);
    case Polygon(rings) =>
      r := AverageCoords(rings[0]);
  }

  /** The representative coordinate of a place. */
  function Location(place: Place): LatLng
    requires Locatable(place.geometry)
  {
    Representative(place.geometry)
  }

  /**
   A polygon whose outer ring is a single vertex is located exactly where a
   Point at that vertex is: the two branches of the reduction agree.
   */
  lemma DegeneratePolygonIsPoint(p: Position, holes: seq<Ring>)
    ensures Representative(Polygon([[p]] + holes)) == Representative(Point(p))
  {
  }

  /** Only a Polygon's outer ring locates it: its holes play no part. */
  lemma HolesIgnored(outer: Ring, holes: seq<Ring>, otherHoles: seq<Ring>)
    requires |outer| > 0
    ensures Representative(Polygon([outer] + holes)) == Representative(Polygon([outer] + otherHoles))
  {
  }

  /** The Point `[3, 5]` (lon 3, lat 5) is located at lat 5, lng 3. */
  lemma PointAxesSwapped()
    ensures Representative(Point([3.0, 5.0])) == LatLng(5.0, 3.0)
  {
  }
}

=== FILE: query.dfy ===
/**
 The bounding-box request the heatmap issues for a confirmed single click:
 the click expanded by a fixed margin of 0.1 degrees on each side, sent with
 a result limit of 200. Building the URL string and formatting the numbers
 are not modelled; the request is its limit and its four box parameters in
 the order they are sent.
 */
module Query {
  import opened Geo

  /** Half the side of the query box, in degrees. */
  const Margin: real := 0.1

  /** The result limit sent with every bounding-box query. */
  const Limit: nat := 200

  datatype BBox = BBox(minLon: real, minLat: real, maxLon: real, maxLat: real)

  /** The parameters of one places query: `limit` and `bbox`, in sending order. */
  datatype PlacesQuery = PlacesQuery(limit: nat, bbox: seq<real>)

  /** The box covers the coordinate (edges included). */
  predicate Contains(b: BBox, p: LatLng) {
    b.minLat <= p.lat <= b.maxLat && b.minLon <= p.lng <= b.maxLon
  }

  function Abs(x: real): real {
    if x < 0.0 then -x else x
  }

  /** The query box around a click: non-degenerate, centred on the click, 0.2 degrees wide. */
  function QueryBox(click: LatLng): (b: BBox)
    ensures b.minLon < b.maxLon && b.minLat < b.maxLat
    ensures (b.minLon + b.maxLon) / 2.0 == click.lng
    ensures (b.minLat + b.maxLat) / 2.0 == click.lat
    ensures b.maxLon - b.minLon == 2.0 * Margin && b.maxLat - b.minLat == 2.0 * Margin
    ensures Contains(b, click)
  {
    BBox(click.lng - Margin, click.lat - Margin, click.lng + Margin, click.lat + Margin)
  }

  /**
   The request for a click: limit 200 and the box sent as
   west, south, east, north (minLon, minLat, maxLon, maxLat), each pair
   `2 * Margin` apart and centred on the click, so the parameters are
   lng - 0.1, lat - 0.1, lng + 0.1, lat + 0.1.
   */
  function Request(click: LatLng): (q: PlacesQuery)
    ensures q.limit == Limit
    ensures |q.bbox| == 4
    ensures q.bbox[0] < q.bbox[2] && q.bbox[1] < q.bbox[3]
    ensures q.bbox[2] - q.bbox[0] == 2.0 * Margin && q.bbox[3] - q.bbox[1] == 2.0 * Margin
    ensures (q.bbox[0] + q.bbox[2]) / 2.0 == click.lng
    ensures (q.bbox[1] + q.bbox[3]) / 2.0 == click.lat
  {
    var b := QueryBox(click);
    PlacesQuery(Limit, [b.minLon, b.minLat, b.maxLon, b.maxLat])
  }

  /** The four sent parameters, read back in sending order, are the query box. */
  lemma RequestDescribesQueryBox(click: LatLng)
    ensures var q := Request(click);
            BBox(q.bbox[0], q.bbox[1], q.bbox[2], q.bbox[3]) == QueryBox(click)
  {
  }

  /**
   A coordinate lies in the query box of a click exactly when it is within
   the margin of the click on both axes.
   */
  lemma QueryBoxMembership(click: LatLng, p: LatLng)
    ensures Contains(QueryBox(click), p)
        <==> Abs(p.lat - click.lat) <= Margin && Abs(p.lng - click.lng) <= Margin
  {
  }

  /**
   Everything the query box covers is within squared distance
   `2 * Margin * Margin` of the click.
   */
  lemma QueryBoxIsNear(click: LatLng, p: LatLng)
    requires Contains(QueryBox(click), p)
    ensures DistanceSq(p, click) <= 2.0 * Sq(Margin)
  {
    SqBounded(p.lat - click.lat, Margin);
    SqBounded(p.lng - click.lng, Margin);
  }
}

=== FILE: ranking.dfy ===
/**
 Ranking of lookup candidates. A candidate pairs the index of a returned
 place with its squared distance to the click; the candidates are sorted
 ascending by distance with a three-way comparator. The browser's sorting
 algorithm is not specified beyond its result, so the sort is modelled by an
 insertion sort and only its result is promised: ordered by distance and a
 permutation of its input. Which of several equally distant candidates comes
 first is not promised.
 */
module Ranking {

  datatype Candidate = Candidate(idx: nat, dist: real)

  /** The comparator passed to the sort: -1, 1 or 0 as `a.dist` is below, above or equal to `b.dist`. */
  function Compare(a: Candidate, b: Candidate): (r: int)
    ensures -1 <= r <= 1
    ensures r < 0 <==> a.dist < b.dist
    ensures r > 0 <==> b.dist < a.dist
  {
    if a.dist < b.dist then -1 else if a.dist > b.dist then 1 else 0
  }

  /**
   The comparator is consistent in the sense the sort needs: its sign flips
   with its arguments, it is zero exactly on equal distances, and "not
   after" is transitive.
   */
  lemma CompareIsConsistent(a: Candidate, b: Candidate, c: Candidate)
    ensures Compare(a, b) == -Compare(b, a)
    ensures Compare(a, b) == 0 <==> a.dist == b.dist
    ensures Compare(a, b) <= 0 <==> a.dist <= b.dist
    ensures Compare(a, b) <= 0 && Compare(b, c) <= 0 ==> Compare(a, c) <= 0
  {
  }

  /** Ascending by distance. */
  ghost predicate Sorted(s: seq<Candidate>) {
    forall i, j :: 0 <= i < j < |s| ==> s[i].dist <= s[j].dist
  }

  /** Inserts `c` before the first candidate that the comparator does not place before it. */
  function Insert(c: Candidate, s: seq<Candidate>): (r: seq<Candidate>)
    requires Sorted(s)
    ensures Sorted(r)
    ensures multiset(r) == multiset(s) + multiset{c}
  {
    if |s| == 0 then [c]
    else if Compare(c, s[0]) <= 0 then
      assert forall j :: 0 < j < |s| + 1 ==> ([c] + s)[j] == s[j - 1];
      [c] + s
    else
      var rest := Insert(c, s[1..]);
      assert s == [s[0]] + s[1..];
      InsertHead(c, s, rest);
      [s[0]] + rest
  }

  /** Every candidate of `rest` is at least as far as the head of `s`. */
  lemma InsertHead(c: Candidate, s: seq<Candidate>, rest: seq<Candidate>)
    requires |s| > 0 && Sorted(s) && Sorted(rest)
    requires s[0].dist < c.dist
    requires multiset(rest) == multiset(s[1..]) + multiset{c}
    ensures Sorted([s[0]] + rest)
  {
    forall j | 0 <= j < |rest|
      ensures s[0].dist <= rest[j].dist
    {
      assert rest[j] in multiset(rest);
      if rest[j] != c {
        assert rest[j] in multiset(s[1..]);
        var k :| 0 <= k < |s[1..]| && s[1..][k] == rest[j];
        assert s[k + 1] == rest[j];
      }
    }
    var r := [s[0]] + rest;
    forall i, j | 0 <= i < j < |r|
      ensures r[i].dist <= r[j].dist
    {
      if i > 0 {
        assert r[i] == rest[i - 1] && r[j] == rest[j - 1];
      } else {
        assert r[j] == rest[j - 1];
      }
    }
  }

  /** Sorts candidates ascending by distance. */
  function Sort(s: seq<Candidate>): (r: seq<Candidate>)
    ensures Sorted(r)
    ensures multiset(r) == multiset(s)
    ensures |r| == |s|
  {
    if |s| == 0 then []
    else
      assert s == [s[0]] + s[1..];
      Insert(s[0], Sort(s[1..]))
  }

  /** The head of a sorted sequence is no farther than any of its members. */
  lemma SortedHeadIsMinimal(s: seq<Candidate>, c: Candidate)
    requires Sorted(s) && c in s
    ensures s[0].dist <= c.dist
  {
  }
}
